=== FILE: README.md ===
# PyDev modules manager: a Dafny model of the module index

PyDev's code completion keeps, per interpreter and per project, a
`ModulesManager`: an index from module keys to module entries, built from
the python path and kept current as files change. An entry is an
`EmptyModule` (a placeholder, nothing parsed), a `SourceModule` (parsed
from a file) or a `CompiledModule` (synthesized, no source file). This
project models that index and its operations as pure transitions over a
Dafny map, and proves what each operation does to the map:

- `changePythonPath` rebuilds the whole index from the python path, the
  archives on it and the builtins list;
- `rebuildModule` resets one file's module to empty, or drops the file's
  entries when it no longer resolves to a module;
- `removeModule` drops entries by directory, by package marker
  (`__init__.*`) or by exact file;
- `getModule` looks a name up and loads it on demand: builtins become
  compiled modules, stale source modules are reparsed, empty ones are
  parsed or compiled;
- `writeObject`/`readObject` persist only the keys and restore empty
  modules.

Layout:

- `wrappers.dfy`: `Option`, standing in for nullable references.
- `files.dfy`: `java.io.File` on a Unix host (`getName`, `getParentFile`,
  `String.startsWith`, `String.lastIndexOf`).
- `module_index.dfy`: keys, module entries, the index map, `Map.put` with
  Java's keep-the-old-key behaviour, the collect-then-remove pass, and the
  key listings.
- `modules_manager.dfy`: the collaborators (`Env`), the progress monitor,
  and `changePythonPath`, `rebuildModule`, `removeModule` and `getModule`.
- `persistence.dfy`: `writeObject`, `readObject` and their round trip.

Modelling choices:

- Keys compare by name alone. Lookups build a key with no file
  (`ModulesManager.java:309`, `:319`, `:321`) and still find entries put with
  a real file (`:145`), so the map is keyed by module name. When
  `java.util.HashMap.put` gets a key equal to one it holds, it replaces the
  value and keeps the old key object. So each slot records the file of the
  held key (`keyFile`) apart from the module stored. Removal (`:184`,
  `:227`, `:249`) and persistence (`:73`) read the key's file. That file
  comes from the first put for a name; the module comes from the last.
- Collaborators whose code is not part of this model are the fields of
  `ModulesManager.Env`. Each is a total function, so every property holds
  whatever they do. They are: `REF.getFileAbsolutePath`, `File.isDirectory`,
  `PythonPathHelper.setPythonPath`, `resolveModule`, `getModulesBelow` and
  `getFromJar`, `AbstractModule.createModule`, the file's current size and
  stamp, and `getBuiltins`.
- The code of `SourceModule.isSynched` is not part of this model. It is
  modelled as comparing a signature stored at parse time (`Sig`, a size
  and a modification stamp) with the file's current one (`currentSig`).
- The progress monitor is `NeverCanceled` or `CanceledAfter(k)`. `k`
  counts only the checks of the two scanning loops' guards (`:112`,
  `:134`): the first `k` of them answer no. `getModulesBelow` and
  `getFromJar` also receive the monitor (`:117`, `:123`); their listings
  are taken as whatever they return, a partial listing on cancel included.
  Both loops stop on cancel, and the code still installs the partial map
  (`:164`).

Two behaviours of the code are worth calling out:

- A cancelled rebuild is not a no-op. Both scanning loops stop once the
  monitor is cancelled (`ModulesManager.java:112`, `:134`), but the partial
  map is still installed (`:164`). Cancelled before the first root, only
  the builtins remain (`CanceledRebuildKeepsOnlyBuiltins`).
- The directory test is a raw `startsWith` on absolute paths (`:249`), so
  removing `/a/pkg` also removes a module of `/a/pkg2/x.py`
  (`BelowIsRawPrefix`).

## Model

| member | source | states |
|---|---|---|
| ModulesManager.ChangePythonPathRebuilds | org.python.pydev/src/org/python/pydev/editor/codecompletion/revisited/ModulesManager.java:101-164 | the new index holds exactly the resolved file names, archive names and builtins, each an empty module under its own name; builtins and archive names carry no file, builtins win over a same-named file, other names carry the last file resolved to them; the held key carries the first file resolved to the name; the old map does not survive |
| ModulesManager.CanceledRebuildKeepsOnlyBuiltins | org.python.pydev/src/org/python/pydev/editor/codecompletion/revisited/ModulesManager.java:112-164 | a rebuild cancelled before the first root still replaces the index, leaving only the builtins as empty file-less modules |
| ModulesManager.ChangePythonPathWellNamed | org.python.pydev/src/org/python/pydev/editor/codecompletion/revisited/ModulesManager.java:145-160 | after a rebuild every module is stored under its own name |
| ModulesManager.Iterations | org.python.pydev/src/org/python/pydev/editor/codecompletion/revisited/ModulesManager.java:112-134 | a scanning loop runs every iteration unless cancelled, stops at once when the monitor is already cancelled, and otherwise runs no iteration past the check that turned it cancelled |
| ModulesManager.Enumerate | org.python.pydev/src/org/python/pydev/editor/codecompletion/revisited/ModulesManager.java:112-129 | the candidates collected are exactly those listed below the directory roots, and the archive names exactly those listed in the roots that are not directories |
| ModulesManager.ScanIsPrefix | org.python.pydev/src/org/python/pydev/editor/codecompletion/revisited/ModulesManager.java:112-148 | the scan keeps a prefix of the resolved files and of the archive names of a full scan; never cancelled it keeps all of them, and cancelled before the last root it keeps no file |
| ModulesManager.ResolveAll | org.python.pydev/src/org/python/pydev/editor/codecompletion/revisited/ModulesManager.java:134-148 | exactly the file candidates whose absolute path resolves are kept, each with the name it resolves to; nothing but file candidates appears |
| ModulesManager.EnumerateInOrder | org.python.pydev/src/org/python/pydev/editor/codecompletion/revisited/ModulesManager.java:112-129 | the roots are scanned in python path order: the candidates and archive names of a path are those of its first part followed by those of the rest |
| ModulesManager.ResolveAllInOrder | org.python.pydev/src/org/python/pydev/editor/codecompletion/revisited/ModulesManager.java:134-148 | the candidates are resolved in listing order: resolving a concatenation gives the resolutions of its parts in the same order |
| ModuleIndex.PutAllSemantics | org.python.pydev/src/org/python/pydev/editor/codecompletion/revisited/ModulesManager.java:145-160 | after a run of puts a name is present iff it was before or some put names it; the last put decides the module, the first put (or the key already held) decides the key's file, untouched names keep their slots |
| ModulesManager.RebuildModule | org.python.pydev/src/org/python/pydev/editor/codecompletion/revisited/ModulesManager.java:172-193 | a file resolving to m leaves m an empty module with that file (the key held for m is kept) and no other entry changed; a file that does not resolve removes exactly the entries whose key carries it |
| ModulesManager.RemoveModule | org.python.pydev/src/org/python/pydev/editor/codecompletion/revisited/ModulesManager.java:199-214 | no file is a no-op; a directory drops every entry below it; a file named `__init__.*` drops every entry below its parent (nothing when it has none); any other file drops exactly the entries whose key carries it; surviving entries are unchanged |
| ModulesManager.RemoveModulesWithFile | org.python.pydev/src/org/python/pydev/editor/codecompletion/revisited/ModulesManager.java:219-233 | an entry survives iff its key does not carry the file; survivors are unchanged; no file is a no-op |
| ModulesManager.RemoveModulesBelow | org.python.pydev/src/org/python/pydev/editor/codecompletion/revisited/ModulesManager.java:239-255 | an entry survives iff its key carries no file or a file whose absolute path does not start with the directory's; survivors are unchanged |
| ModulesManager.BelowIsRawPrefix | org.python.pydev/src/org/python/pydev/editor/codecompletion/revisited/ModulesManager.java:244-252 | the prefix test also catches the sibling directory `/a/pkg2` for `/a/pkg`; an entry whose key has no file is never removed |
| ModuleIndex.CollectWhere | org.python.pydev/src/org/python/pydev/editor/codecompletion/revisited/ModulesManager.java:224-230 | the names collected are exactly those of the entries the test selects |
| ModuleIndex.RemoveThem | org.python.pydev/src/org/python/pydev/editor/codecompletion/revisited/ModulesManager.java:261-266 | exactly the listed names are gone and every other entry is untouched |
| ModuleIndex.AllModuleNames | org.python.pydev/src/org/python/pydev/editor/codecompletion/revisited/ModulesManager.java:271-275 | the set holds exactly the key held for each entry |
| ModuleIndex.AllModuleNamesSize | org.python.pydev/src/org/python/pydev/editor/codecompletion/revisited/ModulesManager.java:271-275 | there are as many keys reported as entries |
| ModuleIndex.AllModules | org.python.pydev/src/org/python/pydev/editor/codecompletion/revisited/ModulesManager.java:280-282 | the array lists every held key once and nothing else |
| ModuleIndex.GetSize | org.python.pydev/src/org/python/pydev/editor/codecompletion/revisited/ModulesManager.java:287-289 | the size is the number of keys `getAllModuleNames` reports |
| ModulesManager.GetModule | org.python.pydev/src/org/python/pydev/editor/codecompletion/revisited/ModulesManager.java:297-370 | a builtin is always served, as a compiled module, fresh when its entry was absent, empty or source; otherwise the `__init__` entry is preferred to the bare name and a missing name is not found and changes nothing; a compiled module or a source module in step with its file is served as stored with nothing changed; an empty module without a file is served as compiled; an empty module with a file, or a stale source module, is served as what the parser returns, and not found exactly when the parser reports the file missing; a served module is stored under the name looked up and is never empty, and the should-not-be-empty error cannot arise when the parser never returns empty modules |
| ModulesManager.GetBuiltin | org.python.pydev/src/org/python/pydev/editor/codecompletion/revisited/ModulesManager.java:305-315 | a builtin name ends up holding a compiled module, the one served; an existing compiled module is served and nothing changes; anything else is replaced by a fresh compiled module, the key already held for the name kept (none when absent); no other entry changes |
| ModulesManager.CheckSynched | org.python.pydev/src/org/python/pydev/editor/codecompletion/revisited/ModulesManager.java:327-335 | what comes out is never a stale source module; a stale one becomes an empty module with its name and file, put under its name with the key already held kept, and no other entry changes; anything else passes through with nothing changed |
| ModulesManager.Materialize | org.python.pydev/src/org/python/pydev/editor/codecompletion/revisited/ModulesManager.java:337-368 | only an empty module is loaded; a served module is never empty; not found exactly when the module has a file and the parser reports it missing, and then the name is gone from the map; without a file the module becomes compiled; with a file it becomes what the parser returns, which is stored under the looked-up name with the key already held kept; an empty parser result is the should-not-be-empty error; no other entry changes |
| ModulesManager.GetModuleFrame | org.python.pydev/src/org/python/pydev/editor/codecompletion/revisited/ModulesManager.java:305-359 | when modules are stored under their own names, a lookup changes no entry but the one it looked up |
| ModulesManager.StaleSourceIsReparsed | org.python.pydev/src/org/python/pydev/editor/codecompletion/revisited/ModulesManager.java:327-363 | a stale source module is served exactly as if it had been an empty module for its file, so it is reparsed rather than served stale |
| ModulesManager.GetModuleKeepsWellNamed | org.python.pydev/src/org/python/pydev/editor/codecompletion/revisited/ModulesManager.java:309-359 | when the parser names modules as asked, a lookup keeps every module stored under its own name |
| ModulesManager.GetModuleTwice | org.python.pydev/src/org/python/pydev/editor/codecompletion/revisited/ModulesManager.java:305-368 | once a compiled module, or a source module in step with its file, has been served, looking the name up again serves it again and changes nothing |
| Persistence.WriteObject | org.python.pydev/src/org/python/pydev/editor/codecompletion/revisited/ModulesManager.java:70-74 | the python path and exactly the held keys are written, one per entry, no two with the same name |
| Persistence.ReadObject | org.python.pydev/src/org/python/pydev/editor/codecompletion/revisited/ModulesManager.java:56-65 | the index read holds one empty module per key, named after the key and carrying the key's file, and nothing else |
| Persistence.SaveAndRestore | org.python.pydev/src/org/python/pydev/editor/codecompletion/revisited/ModulesManager.java:56-74 | a save and restore keeps the python path and the key set, and leaves every entry an empty module with its key's file |

## Left out

- File system, path resolution, parsing and compiled-module synthesis are
  not modelled. They are the `Env` fields, and every property holds for
  every behaviour of them.
- Progress reporting (`setTaskName`, `worked`, the `total` counter) is not
  modelled. It has no effect on the index.
- The `System.err` message for a module that could not be created is not
  modelled. It is output only.
- `getBuiltins` returning null is not modelled; the builtins are a list.
  The rebuild's null guard would behave like an empty list, and the lookup
  would fail on a null array.
- RebuildModule: takes a non-null file. For a null file, the absolute path
  is computed by code that is not part of this model. The unused document,
  project, monitor and nature parameters are dropped.
- Materialize: `createModule` either returns a module or reports a missing
  file. A null return and other exceptions are not modelled.
- Java object-stream mechanics are not modelled. The path helper's
  persisted state is only its python path.
- `getAllModuleNames` returns a fresh copy of the key set. With value
  semantics every result is a copy, so the freshness is not stated.
- The delegations `resolveModule` and `getPythonPath` are not modelled.
  They pass straight through to the path helper.
- Files are Unix pathnames. Windows drive prefixes are not modelled.
- Concurrency is not modelled. The code has no locking, so there is no
  exclusion to check.
- Failed parses are not cached and nothing is locked in the code, so the
  model has neither.
- Files are assumed to hold normalised pathnames, as `new File(...)`
  produces (no trailing or doubled separators); the model does not
  normalise them itself.
- GetModuleFrame: holds only when every module is stored under its own
  name. Otherwise a stale source module is demoted under its own name,
  which can be a second key.

=== FILE: files.dfy ===
/**
 * java.io.File as the module index uses it: a normalised pathname on a
 * Unix-like host ('/' separator), compared by its pathname string.
 */
module Files {
  import opened Wrappers

  datatype File = File(path: string)

  const Separator: char := '/'

  /** Java's String.startsWith: `prefix` is a leading segment of `s`. */
  predicate StartsWith(s: string, prefix: string) {
    prefix <= s
  }

  /** Java's String.lastIndexOf(char): the last position of `c` in `s`, or -1. */
  function LastIndexOf(s: string, c: char): (r: int)
    ensures -1 <= r < |s|
    ensures r >= 0 ==> s[r] == c
    ensures forall i :: r < i < |s| ==> s[i] != c
  {
    if |s| == 0 then -1
    else if s[|s| - 1] == c then |s| - 1
    else LastIndexOf(s[..|s| - 1], c)
  }

  /** Length of the root prefix of a Unix pathname: 1 when absolute, else 0. */
  function PrefixLength(path: string): nat {
    if |path| > 0 && path[0] == Separator then 1 else 0
  }

  /** File.getName: the text after the last separator. */
  function GetName(f: File): (r: string)
    ensures Separator !in r
  {
    f.path[LastIndexOf(f.path, Separator) + 1..]
  }

  /**
   * File.getParentFile: the pathname up to the last separator; the root
   * alone when the only separator is the leading one; none when the path
   * has no separator or is the root itself.
   */
  function GetParent(f: File): Option<File> {
    var i := LastIndexOf(f.path, Separator);
    var prefix := PrefixLength(f.path);
    if i < prefix then
      if prefix > 0 && |f.path| > prefix then Some(File(f.path[..prefix])) else None
    else Some(File(f.path[..i]))
  }
}

=== FILE: module_index.dfy ===
/**
 * The module index of a modules manager: a map from module keys to module
 * entries, and the map operations the manager performs on it.
 *
 * A ModulesKey pairs a module name with the file backing it, but two keys
 * are equal when their names are: entries put with a real file are found by
 * a key built with no file. The index is therefore a map keyed by name.
 * Like java.util.HashMap, putting under a name already present replaces the
 * module and keeps the key object already held, so each slot records the
 * file of its key separately from the module stored.
 */
module ModuleIndex {
  import opened Wrappers
  import opened Files

  type Name = string

  datatype ModulesKey = ModulesKey(name: Name, file: Option<File>)

  /** A file signature (size and modification stamp), captured when it was parsed. */
  datatype Sig = Sig(size: nat, modified: int)

  /** The three kinds of module entry. */
  datatype Module =
    | Empty(name: Name, file: Option<File>)    // placeholder, nothing loaded
    | Source(name: Name, sourceFile: File, sig: Sig) // parsed from a file
    | Compiled(name: Name)                     // synthesized, no source file

  /** One entry of the map: the file of the key object held, and the module stored. */
  datatype Slot = Slot(keyFile: Option<File>, stored: Module)

  type Index = map<Name, Slot>

  /** The key object the map holds for `n`. */
  function KeyAt(idx: Index, n: Name): ModulesKey
    requires n in idx
  {
    ModulesKey(n, idx[n].keyFile)
  }

  predicate AllEmpty(idx: Index) {
    forall n :: n in idx ==> idx[n].stored.Empty?
  }

  /** Every module is stored under its own name. */
  predicate WellNamed(idx: Index) {
    forall n :: n in idx ==> idx[n].stored.name == n
  }

  /** Map.put: the key object already held for the name survives. */
  function Put(idx: Index, k: ModulesKey, m: Module): (r: Index)
    ensures r.Keys == idx.Keys + {k.name}
    ensures r[k.name].stored == m
    ensures r[k.name].keyFile == if k.name in idx then idx[k.name].keyFile else k.file
    ensures forall n :: n in idx && n != k.name ==> r[n] == idx[n]
  {
    var held := if k.name in idx then idx[k.name].keyFile else k.file;
    idx[k.name := Slot(held, m)]
  }

  /** One put: a key and the module stored under it. */
  type Entry = (ModulesKey, Module)

  /** The puts of `ps`, performed in order. */
  function PutAll(idx: Index, ps: seq<Entry>): Index
    decreases |ps|
  {
    if ps == [] then idx
    else
      var last := ps[|ps| - 1];
      Put(PutAll(idx, ps[..|ps| - 1]), last.0, last.1)
  }

  /** The key of the first put in `ps` naming `n`. */
  function FirstKey(ps: seq<Entry>, n: Name): (r: Option<ModulesKey>)
    ensures r.Some? ==> r.value.name == n
    decreases |ps|
  {
    if ps == [] then None
    else
      var prior := FirstKey(ps[..|ps| - 1], n);
      if prior.Some? then prior
      else if ps[|ps| - 1].0.name == n then Some(ps[|ps| - 1].0)
      else None
  }

  /** The module of the last put in `ps` naming `n`. */
  function LastModule(ps: seq<Entry>, n: Name): Option<Module>
    decreases |ps|
  {
    if ps == [] then None
    else if ps[|ps| - 1].0.name == n then Some(ps[|ps| - 1].1)
    else LastModule(ps[..|ps| - 1], n)
  }

  /**
   * A sequence of puts: a name is present afterwards iff it was before or
   * some put names it; a name no put touches keeps its slot; otherwise the
   * last put decides the module and the first key put (unless one was
   * already held) decides the key's file.
   */
  lemma {:induction false} PutAllSemantics(idx: Index, ps: seq<Entry>, n: Name)
    ensures FirstKey(ps, n).Some? <==> LastModule(ps, n).Some?
    ensures n in PutAll(idx, ps) <==> n in idx || FirstKey(ps, n).Some?
    ensures FirstKey(ps, n).None? && n in idx ==> PutAll(idx, ps)[n] == idx[n]
    ensures FirstKey(ps, n).Some? ==>
      PutAll(idx, ps)[n] == Slot(if n in idx then idx[n].keyFile else FirstKey(ps, n).value.file,
                                 LastModule(ps, n).value)
    decreases |ps|
  {
    if ps != [] {
      PutAllSemantics(idx, ps[..|ps| - 1], n);
    }
  }

  /**
   * The first pass of a removal: the names of every entry that `doomed`
   * selects, collected while walking the key set.
   */
  method CollectWhere(idx: Index, doomed: (Name, Slot) -> bool) returns (toRem: seq<Name>)
    ensures forall n :: n in toRem <==> n in idx && doomed(n, idx[n])
  {
    toRem := [];
    var rest := idx.Keys;
    while rest != {}
      invariant rest <= idx.Keys
      invariant forall n :: n in toRem <==> n in idx && n !in rest && doomed(n, idx[n])
      decreases |rest|
    {
      var n :| n in rest;
      if doomed(n, idx[n]) {
        toRem := toRem + [n];
      }
      rest := rest - {n};
    }
  }

  /** removeThem: removes each listed name; every other entry is untouched. */
  method RemoveThem(idx: Index, toRem: seq<Name>) returns (r: Index)
    ensures forall n :: n in r <==> n in idx && n !in toRem
    ensures forall n :: n in r ==> r[n] == idx[n]
  {
    r := idx;
    for i := 0 to |toRem|
      invariant forall n :: n in r <==> n in idx && n !in toRem[..i]
      invariant forall n :: n in r ==> r[n] == idx[n]
    {
      assert toRem[..i + 1] == toRem[..i] + [toRem[i]];
      r := r - {toRem[i]};
    }
    assert toRem[..|toRem|] == toRem;
  }

  /** getAllModuleNames: the keys held, as a set distinct from the map. */
  function AllModuleNames(idx: Index): (ks: set<ModulesKey>)
    ensures forall k :: k in ks <==> k.name in idx && idx[k.name].keyFile == k.file
  {
    set n | n in idx :: KeyAt(idx, n)
  }

  /** No two keys returned share a name, so there is one per entry. */
  lemma {:induction false} AllModuleNamesSize(idx: Index)
    ensures |AllModuleNames(idx)| == |idx|
    decreases |idx|
  {
    if |idx| > 0 {
      var n :| n in idx;
      var rest := idx - {n};
      assert rest.Keys == idx.Keys - {n};
      AllModuleNamesSize(rest);
      assert AllModuleNames(idx) == AllModuleNames(rest) + {KeyAt(idx, n)};
    }
  }

  /** getSize: the number of entries, which is the number of keys reported. */
  function GetSize(idx: Index): (size: nat)
    ensures size == |AllModuleNames(idx)|
  {
    AllModuleNamesSize(idx);
    |idx|
  }

  /** getAllModules: every key held, each once, in the map's own order. */
  method AllModules(idx: Index) returns (ks: seq<ModulesKey>)
    ensures forall k :: k in ks <==> k in AllModuleNames(idx)
    ensures forall i, j :: 0 <= i < j < |ks| ==> ks[i].name != ks[j].name
    ensures |ks| == |idx|
  {
    ks := [];
    var rest := idx.Keys;
    while rest != {}
      invariant rest <= idx.Keys
      invariant forall k :: k in ks <==> k.name in idx && k.name !in rest && idx[k.name].keyFile == k.file
      invariant forall i, j :: 0 <= i < j < |ks| ==> ks[i].name != ks[j].name
      invariant |ks| + |rest| == |idx|
      decreases |rest|
    {
      var n :| n in rest;
      ks := ks + [KeyAt(idx, n)];
      rest := rest - {n};
    }
  }
}

=== FILE: modules_manager.dfy ===
/**
 * ModulesManager: the module index together with the python path it was
 * built from, and the operations that rebuild, update, prune and query it.
 *
 * The collaborators the manager calls but whose code is not part of this
 * model (path helper, file system, parser, builtins list) are the fields of
 * an `Env`; each is a total function, so the model holds for every
 * behaviour they might have.
 */
module ModulesManager {
  import opened Wrappers
  import opened Files
  import opened ModuleIndex

  /** An object listed below a python path root; only files become modules. */
  datatype Candidate = FileCandidate(file: File) | OtherCandidate

  /** What parsing a module file gives: a module, or FileNotFoundException. */
  datatype Created = Parsed(loaded: Module) | FileMissing

  datatype Env = Env(
    absolutePath: File -> string,                    // REF.getFileAbsolutePath
    isDirectory: File -> bool,                       // File.isDirectory
    setPythonPath: string -> seq<string>,            // PythonPathHelper.setPythonPath
    resolveModule: (seq<string>, string) -> Option<Name>, // PythonPathHelper.resolveModule
    modulesBelow: File -> Option<seq<Candidate>>,    // PythonPathHelper.getModulesBelow
    fromJar: File -> Option<seq<Name>>,              // PythonPathHelper.getFromJar
    createModule: (Name, File) -> Created,           // AbstractModule.createModule
    currentSig: File -> Sig,                         // size and stamp of a file now
    builtins: seq<Name>)                             // getBuiltins

  /** The manager's state: the path helper's python path and the index. */
  datatype Manager = Manager(pythonpath: seq<string>, modules: Index)

  // ---------------------------------------------------------------------
  // changePythonPath
  // ---------------------------------------------------------------------

  /** A progress monitor: the first `checks` calls of isCanceled answer no. */
  datatype Monitor = NeverCanceled | CanceledAfter(checks: nat)

  /**
   * How many of `n` iterations a loop guarded by `hasNext() &&
   * !isCanceled()` runs, once `used` earlier calls of isCanceled answered no.
   */
  function Iterations(mon: Monitor, used: nat, n: nat): (k: nat)
    ensures k <= n
    ensures mon.NeverCanceled? ==> k == n
    ensures k < n ==> mon.CanceledAfter? && mon.checks <= used + k
    ensures mon.CanceledAfter? && used + n <= mon.checks ==> k == n
    ensures mon.CanceledAfter? ==> k == 0 || used + k <= mon.checks
  {
    match mon
    case NeverCanceled => n
    case CanceledAfter(c) =>
      if c <= used then 0 else if c - used < n then c - used else n
  }

  /**
   * The first loop of changePythonPath over `roots`: the candidates below
   * each directory root, and the names listed in each root that is an
   * archive instead.
   */
  function Enumerate(env: Env, roots: seq<string>): (r: (seq<Candidate>, seq<Name>))
    ensures forall c :: c in r.0 <==>
      exists i :: 0 <= i < |roots| && env.modulesBelow(File(roots[i])).Some? && c in env.modulesBelow(File(roots[i])).value
    ensures forall n :: n in r.1 <==>
      exists i :: 0 <= i < |roots| && env.modulesBelow(File(roots[i])).None? && n in env.fromJar(File(roots[i])).GetOr([])
    decreases |roots|
  {
    if roots == [] then ([], [])
    else
      var (below, jars) := Enumerate(env, roots[..|roots| - 1]);
      var root := File(roots[|roots| - 1]);
      match env.modulesBelow(root)
      case Some(found) => (below + found, jars)
      case None => (below, jars + env.fromJar(root).GetOr([]))
  }

  /** The candidate files that resolve to a module name, with that name. */
  function ResolveAll(env: Env, path: seq<string>, cands: seq<Candidate>): (files: seq<(Name, File)>)
    ensures forall i :: 0 <= i < |files| ==>
      env.resolveModule(path, env.absolutePath(files[i].1)) == Some(files[i].0)
    ensures forall i :: 0 <= i < |files| ==> FileCandidate(files[i].1) in cands
    ensures forall f :: FileCandidate(f) in cands && env.resolveModule(path, env.absolutePath(f)).Some? ==>
      (env.resolveModule(path, env.absolutePath(f)).value, f) in files
    decreases |cands|
  {
    if cands == [] then []
    else
      var prior := ResolveAll(env, path, cands[..|cands| - 1]);
      match cands[|cands| - 1]
      case OtherCandidate => prior
      case FileCandidate(f) =>
        match env.resolveModule(path, env.absolutePath(f))
        case Some(m) => prior + [(m, f)]
        case None => prior
  }

  /** The roots are scanned in python path order: scanning splits over concatenation. */
  lemma {:induction false} EnumerateInOrder(env: Env, r1: seq<string>, r2: seq<string>)
    ensures Enumerate(env, r1 + r2).0 == Enumerate(env, r1).0 + Enumerate(env, r2).0
    ensures Enumerate(env, r1 + r2).1 == Enumerate(env, r1).1 + Enumerate(env, r2).1
    decreases |r2|
  {
    if r2 == [] {
      assert r1 + r2 == r1;
    } else {
      var r2' := r2[..|r2| - 1];
      assert (r1 + r2)[..|r1 + r2| - 1] == r1 + r2';
      assert (r1 + r2)[|r1 + r2| - 1] == r2[|r2| - 1];
      EnumerateInOrder(env, r1, r2');
    }
  }

  /** The candidates are resolved in listing order: resolution splits over concatenation. */
  lemma {:induction false} ResolveAllInOrder(env: Env, path: seq<string>, c1: seq<Candidate>, c2: seq<Candidate>)
    ensures ResolveAll(env, path, c1 + c2) == ResolveAll(env, path, c1) + ResolveAll(env, path, c2)
    decreases |c2|
  {
    if c2 == [] {
      assert c1 + c2 == c1;
    } else {
      var c2' := c2[..|c2| - 1];
      assert (c1 + c2)[..|c1 + c2| - 1] == c1 + c2';
      assert (c1 + c2)[|c1 + c2| - 1] == c2[|c2| - 1];
      ResolveAllInOrder(env, path, c1, c2');
    }
  }

  /** What the two scanning loops produce before the monitor stops them. */
  datatype Scanned = Scanned(files: seq<(Name, File)>, jars: seq<Name>)

  function ScanPath(env: Env, path: seq<string>, mon: Monitor): Scanned {
    var p := Iterations(mon, 0, |path|);
    var (below, jars) := Enumerate(env, path[..p]);
    var q := Iterations(mon, p, |below|);
    Scanned(ResolveAll(env, path, below[..q]), jars)
  }

  /**
   * The scan keeps a prefix of what an uncancelled scan would: of the
   * resolved files of every root and of the archive names. Never cancelled,
   * it keeps all of them; cancelled before the last root, it keeps no file.
   */
  lemma {:induction false} ScanIsPrefix(env: Env, path: seq<string>, mon: Monitor)
    ensures var s := ScanPath(env, path, mon);
      var full := Enumerate(env, path);
      && s.files <= ResolveAll(env, path, full.0)
      && s.jars <= full.1
      && (mon.NeverCanceled? ==> s == Scanned(ResolveAll(env, path, full.0), full.1))
      && (mon.CanceledAfter? && mon.checks < |path| ==> s.files == [])
  {
    var p := Iterations(mon, 0, |path|);
    var (below, jars) := Enumerate(env, path[..p]);
    var q := Iterations(mon, p, |below|);
    var full := Enumerate(env, path);
    assert path == path[..p] + path[p..];
    EnumerateInOrder(env, path[..p], path[p..]);
    assert below == below[..q] + below[q..];
    ResolveAllInOrder(env, path, below[..q], below[q..]);
    ResolveAllInOrder(env, path, below, Enumerate(env, path[p..]).0);
  }

  /** The puts of empty modules for resolved files. */
  function FilePuts(files: seq<(Name, File)>): seq<Entry>
    decreases |files|
  {
    if files == [] then []
    else
      var (m, f) := files[|files| - 1];
      FilePuts(files[..|files| - 1]) + [(ModulesKey(m, Some(f)), Empty(m, Some(f)))]
  }

  /** The puts of empty, file-less modules for archive and builtin names. */
  function NamePuts(names: seq<Name>): seq<Entry>
    decreases |names|
  {
    if names == [] then []
    else
      var m := names[|names| - 1];
      NamePuts(names[..|names| - 1]) + [(ModulesKey(m, None), Empty(m, None))]
  }

  /** changePythonPath: a brand-new index of empty modules replaces the old one. */
  function ChangePythonPath(st: Manager, env: Env, pythonpath: string, mon: Monitor): Manager {
    var path := env.setPythonPath(pythonpath);
    var s := ScanPath(env, path, mon);
    var fromFiles := PutAll(map[], FilePuts(s.files));
    var fromJars := PutAll(fromFiles, NamePuts(s.jars));
    Manager(path, PutAll(fromJars, NamePuts(env.builtins)))
  }

  /** The file of the first resolved file named `n`. */
  function FirstFile(files: seq<(Name, File)>, n: Name): Option<File>
    decreases |files|
  {
    if files == [] then None
    else
      var prior := FirstFile(files[..|files| - 1], n);
      if prior.Some? then prior
      else if files[|files| - 1].0 == n then Some(files[|files| - 1].1)
      else None
  }

  /** The file of the last resolved file named `n`. */
  function LastFile(files: seq<(Name, File)>, n: Name): Option<File>
    decreases |files|
  {
    if files == [] then None
    else if files[|files| - 1].0 == n then Some(files[|files| - 1].1)
    else LastFile(files[..|files| - 1], n)
  }

  lemma {:induction false} FilePutsOrder(files: seq<(Name, File)>, n: Name)
    ensures FirstFile(files, n).Some? <==> LastFile(files, n).Some?
    ensures FirstKey(FilePuts(files), n) ==
      if FirstFile(files, n).Some? then Some(ModulesKey(n, FirstFile(files, n))) else None
    ensures LastModule(FilePuts(files), n) ==
      if LastFile(files, n).Some? then Some(Empty(n, LastFile(files, n))) else None
    decreases |files|
  {
    if files != [] {
      var prefix := files[..|files| - 1];
      FilePutsOrder(prefix, n);
      assert FilePuts(files)[..|FilePuts(files)| - 1] == FilePuts(prefix);
    }
  }

  lemma {:induction false} NamePutsOrder(names: seq<Name>, n: Name)
    ensures FirstKey(NamePuts(names), n) == if n in names then Some(ModulesKey(n, None)) else None
    ensures LastModule(NamePuts(names), n) == if n in names then Some(Empty(n, None)) else None
    decreases |names|
  {
    if names != [] {
      var prefix := names[..|names| - 1];
      NamePutsOrder(prefix, n);
      assert NamePuts(names)[..|NamePuts(names)| - 1] == NamePuts(prefix);
      assert names == prefix + [names[|names| - 1]];
    }
  }

  /**
   * After changePythonPath the index holds exactly the resolved files, the
   * archive names and the builtins, every one an empty module stored under
   * its own name. Builtins and archive names carry no file; any other name
   * carries the last file resolved to it. The key held for a name carries
   * the first file resolved to it, or none.
   */
  lemma ChangePythonPathRebuilds(st: Manager, env: Env, pythonpath: string, mon: Monitor)
    ensures var r := ChangePythonPath(st, env, pythonpath, mon);
      && r.pythonpath == env.setPythonPath(pythonpath)
      && var s := ScanPath(env, r.pythonpath, mon);
      && (forall n :: n in r.modules <==> LastFile(s.files, n).Some? || n in s.jars || n in env.builtins)
      && (forall n :: n in r.modules ==>
            r.modules[n].stored == Empty(n, if n in env.builtins || n in s.jars then None else LastFile(s.files, n)))
      && (forall n :: n in r.modules ==> r.modules[n].keyFile == FirstFile(s.files, n))
  {
    var r := ChangePythonPath(st, env, pythonpath, mon);
    var path := env.setPythonPath(pythonpath);
    var s := ScanPath(env, path, mon);
    var fromFiles := PutAll(map[], FilePuts(s.files));
    var fromJars := PutAll(fromFiles, NamePuts(s.jars));
    forall n
      ensures n in r.modules <==> LastFile(s.files, n).Some? || n in s.jars || n in env.builtins
      ensures n in r.modules ==>
            r.modules[n].stored == Empty(n, if n in env.builtins || n in s.jars then None else LastFile(s.files, n))
      ensures n in r.modules ==> r.modules[n].keyFile == FirstFile(s.files, n)
    {
      FilePutsOrder(s.files, n);
      NamePutsOrder(s.jars, n);
      NamePutsOrder(env.builtins, n);
      PutAllSemantics(map[], FilePuts(s.files), n);
      PutAllSemantics(fromFiles, NamePuts(s.jars), n);
      PutAllSemantics(fromJars, NamePuts(env.builtins), n);
    }
  }

  /** A rebuilt index stores every module under its own name. */
  lemma ChangePythonPathWellNamed(st: Manager, env: Env, pythonpath: string, mon: Monitor)
    ensures WellNamed(ChangePythonPath(st, env, pythonpath, mon).modules)
  {
    ChangePythonPathRebuilds(st, env, pythonpath, mon);
  }

  /**
   * A monitor cancelled before the first root is looked at still replaces
   * the index: what remains is the builtins alone, as empty modules.
   */
  lemma CanceledRebuildKeepsOnlyBuiltins(st: Manager, env: Env, pythonpath: string)
    ensures var r := ChangePythonPath(st, env, pythonpath, CanceledAfter(0));
      && r.modules.Keys == set b | b in env.builtins
      && forall n :: n in r.modules ==> r.modules[n].stored == Empty(n, None)
  {
    var r := ChangePythonPath(st, env, pythonpath, CanceledAfter(0));
    var path := env.setPythonPath(pythonpath);
    var s := ScanPath(env, path, CanceledAfter(0));
    assert s.files == [] && s.jars == [];
    ChangePythonPathRebuilds(st, env, pythonpath, CanceledAfter(0));
  }

  // ---------------------------------------------------------------------
  // rebuildModule
  // ---------------------------------------------------------------------

  /**
   * rebuildModule: a file that resolves to a module name is reset to an
   * empty module to be parsed again on demand; a file that no longer
   * resolves loses every entry whose key carries it.
   */
  method RebuildModule(st: Manager, env: Env, f: File) returns (r: Manager)
    ensures r.pythonpath == st.pythonpath
    ensures forall n :: n in r.modules && n in st.modules && r.modules[n] != st.modules[n] ==>
      env.resolveModule(st.pythonpath, env.absolutePath(f)) == Some(n)
    ensures env.resolveModule(st.pythonpath, env.absolutePath(f)).Some? ==>
      var m := env.resolveModule(st.pythonpath, env.absolutePath(f)).value;
      && r.modules.Keys == st.modules.Keys + {m}
      && r.modules[m].stored == Empty(m, Some(f))
      && r.modules[m].keyFile == (if m in st.modules then st.modules[m].keyFile else Some(f))
    ensures env.resolveModule(st.pythonpath, env.absolutePath(f)).None? ==>
      forall n :: n in r.modules <==> n in st.modules && st.modules[n].keyFile != Some(f)
    ensures WellNamed(st.modules) ==> WellNamed(r.modules)
  {
    var m := env.resolveModule(st.pythonpath, env.absolutePath(f));
    if m.Some? {
      r := st.(modules := Put(st.modules, ModulesKey(m.value, Some(f)), Empty(m.value, Some(f))));
    } else {
      var toRemove := CollectWhere(st.modules, (n: Name, s: Slot) => s.keyFile == Some(f));
      var modules := RemoveThem(st.modules, toRemove);
      r := st.(modules := modules);
    }
  }

  // ---------------------------------------------------------------------
  // removeModule
  // ---------------------------------------------------------------------

  /** The key of `s` carries a file whose absolute path starts with `dir`'s. */
  predicate Below(env: Env, dir: File, s: Slot) {
    s.keyFile.Some? && StartsWith(env.absolutePath(s.keyFile.value), env.absolutePath(dir))
  }

  /** removeModulesWithFile: drops the entries whose key carries `file`. */
  method RemoveModulesWithFile(st: Manager, file: Option<File>) returns (r: Manager)
    ensures r.pythonpath == st.pythonpath
    ensures forall n :: n in r.modules <==>
      n in st.modules && (file.None? || st.modules[n].keyFile != file)
    ensures forall n :: n in r.modules ==> r.modules[n] == st.modules[n]
  {
    if file == None {
      return st;
    }
    var toRem := CollectWhere(st.modules, (n: Name, s: Slot) => s.keyFile == file);
    var modules := RemoveThem(st.modules, toRem);
    r := st.(modules := modules);
  }

  /** removeModulesBelow: drops the entries whose key's file lies below `dir`. */
  method RemoveModulesBelow(st: Manager, env: Env, dir: Option<File>) returns (r: Manager)
    ensures r.pythonpath == st.pythonpath
    ensures forall n :: n in r.modules <==>
      n in st.modules && (dir.None? || !Below(env, dir.value, st.modules[n]))
    ensures forall n :: n in r.modules ==> r.modules[n] == st.modules[n]
  {
    if dir == None {
      return st;
    }
    var d := dir.value;
    var toRem := CollectWhere(st.modules, (n: Name, s: Slot) => Below(env, d, s));
    var modules := RemoveThem(st.modules, toRem);
    r := st.(modules := modules);
  }

  /** A file whose name marks a package: it starts with "__init__.". */
  predicate IsPackageMarker(f: File) {
    StartsWith(GetName(f), "__init__.")
  }

  /**
   * removeModule: nothing for no file; a directory drops everything below
   * it; a package marker drops everything below its parent directory; any
   * other file drops exactly the entries whose key carries it. Entries are
   * only ever dropped, never changed.
   */
  method RemoveModule(st: Manager, env: Env, file: Option<File>) returns (r: Manager)
    ensures r.pythonpath == st.pythonpath
    ensures forall n :: n in r.modules ==> n in st.modules && r.modules[n] == st.modules[n]
    ensures file.None? ==> r == st
    ensures file.Some? && env.isDirectory(file.value) ==>
      forall n :: n in r.modules <==> n in st.modules && !Below(env, file.value, st.modules[n])
    ensures file.Some? && !env.isDirectory(file.value) && IsPackageMarker(file.value) ==>
      match GetParent(file.value)
      case None => r == st
      case Some(dir) => forall n :: n in r.modules <==> n in st.modules && !Below(env, dir, st.modules[n])
    ensures file.Some? && !env.isDirectory(file.value) && !IsPackageMarker(file.value) ==>
      forall n :: n in r.modules <==> n in st.modules && st.modules[n].keyFile != file
    ensures WellNamed(st.modules) ==> WellNamed(r.modules)
  {
    if file == None {
      return st;
    }
    var f := file.value;
    if env.isDirectory(f) {
      r := RemoveModulesBelow(st, env, file);
    } else if IsPackageMarker(f) {
      r := RemoveModulesBelow(st, env, GetParent(f));
      if GetParent(f).None? {
        assert r.modules == st.modules;
      }
    } else {
      r := RemoveModulesWithFile(st, file);
    }
  }

  /**
   * The directory test is a raw string prefix: removing "/a/pkg" also drops
   * a module of the sibling directory "/a/pkg2"; an entry whose key carries
   * no file is never below anything.
   */
  lemma BelowIsRawPrefix(env: Env)
    requires forall f :: env.absolutePath(f) == f.path
    ensures Below(env, File("/a/pkg"), Slot(Some(File("/a/pkg2/x.py")), Empty("x", Some(File("/a/pkg2/x.py")))))
    ensures forall dir, m :: !Below(env, dir, Slot(None, m))
  {
  }

  // ---------------------------------------------------------------------
  // getModule
  // ---------------------------------------------------------------------

  /** What getModule hands back; StillEmpty is its "should not be empty" error. */
  datatype Lookup = Found(served: Module) | NotFound | StillEmpty(served: Module)

  /**
   * SourceModule.isSynched, whose code is not part of this model: taken to
   * compare the signature stored at parse time with the file's current one.
   */
  predicate Synched(env: Env, m: Module)
    requires m.Source?
  {
    m.sig == env.currentSig(m.sourceFile)
  }

  function InitName(name: Name): Name {
    name + ".__init__"
  }

  /** The key a non-builtin lookup uses: name.__init__ if present, else name. */
  function QualifiedName(idx: Index, name: Name): Name {
    if InitName(name) in idx then InitName(name) else name
  }

  /** A builtin is always served as a compiled module, created if needed. */
  function GetBuiltin(st: Manager, name: Name): (r: (Lookup, Manager))
    ensures r.0.Found? && r.0.served.Compiled?
    ensures name in r.1.modules && r.1.modules[name].stored == r.0.served
    ensures name !in st.modules || !st.modules[name].stored.Compiled? ==> r.0 == Found(Compiled(name))
    ensures name in st.modules && st.modules[name].stored.Compiled? ==> r == (Found(st.modules[name].stored), st)
    ensures r.1.modules[name].keyFile == if name in st.modules then st.modules[name].keyFile else None
    ensures r.1.pythonpath == st.pythonpath
    ensures forall n :: n != name ==>
      (n in r.1.modules <==> n in st.modules) && (n in st.modules ==> r.1.modules[n] == st.modules[n])
  {
    if name in st.modules && st.modules[name].stored.Compiled? then
      (Found(st.modules[name].stored), st)
    else
      var c := Compiled(name);
      (Found(c), st.(modules := Put(st.modules, ModulesKey(name, None), c)))
  }

  /** A source module out of step with its file is put back as an empty one. */
  function CheckSynched(st: Manager, env: Env, m: Module): (r: (Module, Manager))
    ensures !r.0.Source? || Synched(env, r.0)
    ensures r.1.pythonpath == st.pythonpath
    ensures m.Source? && !Synched(env, m) ==>
      && r.0.Empty? && r.0.name == m.name && r.0.file == Some(m.sourceFile)
      && r.1.modules.Keys == st.modules.Keys + {m.name}
      && r.1.modules[m.name].stored == r.0
      && r.1.modules[m.name].keyFile == (if m.name in st.modules then st.modules[m.name].keyFile else Some(m.sourceFile))
      && forall n :: n in st.modules && n != m.name ==> r.1.modules[n] == st.modules[n]
    ensures !(m.Source? && !Synched(env, m)) ==> r == (m, st)
  {
    if m.Source? && !Synched(env, m) then
      var e := Empty(m.name, Some(m.sourceFile));
      (e, st.(modules := Put(st.modules, ModulesKey(m.name, Some(m.sourceFile)), e)))
    else (m, st)
  }

  /**
   * An empty module stored under `q` is loaded: parsed from its file, or
   * dropped if the file is gone, or compiled if it has no file. Any other
   * module is served as it is.
   */
  function Materialize(st: Manager, env: Env, q: Name, m: Module): (r: (Lookup, Manager))
    ensures r.1.pythonpath == st.pythonpath
    ensures !m.Empty? ==> r == (Found(m), st)
    ensures r.0.Found? ==> !r.0.served.Empty?
    ensures r.0.StillEmpty? ==>
      m.Empty? && m.file.Some? && env.createModule(q, m.file.value) == Parsed(r.0.served) && r.0.served.Empty?
    ensures m.Empty? ==> (r.0.NotFound? <==> m.file.Some? && env.createModule(q, m.file.value).FileMissing?)
    ensures m.Empty? && m.file.None? ==> r.0 == Found(Compiled(q))
    ensures m.Empty? && m.file.Some? && env.createModule(q, m.file.value).Parsed? ==>
      !r.0.NotFound? && r.0.served == env.createModule(q, m.file.value).loaded
    ensures m.Empty? && !r.0.NotFound? ==>
      && q in r.1.modules
      && r.1.modules[q].stored == r.0.served
      && r.1.modules[q].keyFile == (if q in st.modules then st.modules[q].keyFile else m.file)
    ensures r.0.NotFound? ==> q !in r.1.modules
    ensures m.Empty? ==> forall n :: n != q ==>
      (n in r.1.modules <==> n in st.modules) && (n in st.modules ==> r.1.modules[n] == st.modules[n])
  {
    if !m.Empty? then (Found(m), st)
    else if m.file.None? then
      var c := Compiled(q);
      (Found(c), st.(modules := Put(st.modules, ModulesKey(q, None), c)))
    else
      match env.createModule(q, m.file.value)
      case FileMissing => (NotFound, st.(modules := st.modules - {q}))
      case Parsed(loaded) =>
        var st' := st.(modules := Put(st.modules, ModulesKey(q, m.file), loaded));
        if loaded.Empty? then (StillEmpty(loaded), st') else (Found(loaded), st')
  }

  /** The parser never hands back an empty module. */
  ghost predicate ParsesToLoaded(env: Env) {
    forall q, f :: env.createModule(q, f).Parsed? ==> !env.createModule(q, f).loaded.Empty?
  }

  /** The parser names each module after the name it was asked for. */
  ghost predicate ParsesToNamed(env: Env) {
    forall q, f :: env.createModule(q, f).Parsed? ==> env.createModule(q, f).loaded.name == q
  }

  /**
   * getModule: builtins first, served as compiled modules; otherwise the
   * name.__init__ entry before the bare name. A stale source module is
   * reparsed, an empty one loaded, and the result stored under the name
   * looked up. The result is never an empty module.
   */
  function GetModule(st: Manager, env: Env, name: Name): (r: (Lookup, Manager))
    ensures r.1.pythonpath == st.pythonpath
    ensures r.0.Found? ==> !r.0.served.Empty?
    ensures ParsesToLoaded(env) ==> !r.0.StillEmpty?
    ensures name in env.builtins ==> r.0.Found? && r.0.served.Compiled?
    ensures name in env.builtins && (name !in st.modules || !st.modules[name].stored.Compiled?) ==>
      r.0 == Found(Compiled(name))
    ensures name !in env.builtins && QualifiedName(st.modules, name) !in st.modules ==> r == (NotFound, st)
    ensures r.0.Found? ==>
      var q := LookupKey(st, env, name);
      q in r.1.modules && r.1.modules[q].stored == r.0.served
    ensures name !in env.builtins && r.0.NotFound? ==> QualifiedName(st.modules, name) !in r.1.modules
    ensures name !in env.builtins && QualifiedName(st.modules, name) in st.modules ==>
      var q := QualifiedName(st.modules, name);
      var m := st.modules[q].stored;
      && ((m.Compiled? || (m.Source? && Synched(env, m))) ==> r == (Found(m), st))
      && (m.Empty? && m.file.None? ==> r.0 == Found(Compiled(q)))
      && (m.Empty? && m.file.Some? ==> (r.0.NotFound? <==> env.createModule(q, m.file.value).FileMissing?))
      && (m.Empty? && m.file.Some? && env.createModule(q, m.file.value).Parsed? ==>
            !r.0.NotFound? && r.0.served == env.createModule(q, m.file.value).loaded)
      && (m.Source? && !Synched(env, m) ==>
            (r.0.NotFound? <==> env.createModule(q, m.sourceFile).FileMissing?))
      && (m.Source? && !Synched(env, m) && env.createModule(q, m.sourceFile).Parsed? ==>
            !r.0.NotFound? && r.0.served == env.createModule(q, m.sourceFile).loaded)
  {
    if name in env.builtins then GetBuiltin(st, name)
    else
      var q := QualifiedName(st.modules, name);
      if q !in st.modules then (NotFound, st)
      else
        var (m, st1) := CheckSynched(st, env, st.modules[q].stored);
        Materialize(st1, env, q, m)
  }

  /** The one key a lookup may store under: the builtin name, or the qualified name. */
  function LookupKey(st: Manager, env: Env, name: Name): Name {
    if name in env.builtins then name else QualifiedName(st.modules, name)
  }

  /**
   * With every module stored under its own name, a lookup changes at most
   * the entry it looked up; all others keep their slots.
   */
  lemma GetModuleFrame(st: Manager, env: Env, name: Name)
    requires WellNamed(st.modules)
    ensures var r := GetModule(st, env, name);
      forall n :: n != LookupKey(st, env, name) ==>
        (n in r.1.modules <==> n in st.modules) && (n in st.modules ==> r.1.modules[n] == st.modules[n])
  {
  }

  /**
   * A stale source module is served exactly as the empty module it is
   * demoted to: the lookup reparses its file instead of serving it.
   */
  lemma StaleSourceIsReparsed(st: Manager, env: Env, name: Name)
    requires WellNamed(st.modules)
    requires name !in env.builtins
    requires QualifiedName(st.modules, name) in st.modules
    requires st.modules[QualifiedName(st.modules, name)].stored.Source?
    requires !Synched(env, st.modules[QualifiedName(st.modules, name)].stored)
    ensures var q := QualifiedName(st.modules, name);
      var s := st.modules[q];
      var demoted := st.(modules := st.modules[q := Slot(s.keyFile, Empty(q, Some(s.stored.sourceFile)))]);
      GetModule(st, env, name) == GetModule(demoted, env, name)
  {
  }

  /**
   * When the parser names modules after the name asked for, a lookup keeps
   * every module stored under its own name.
   */
  lemma GetModuleKeepsWellNamed(st: Manager, env: Env, name: Name)
    requires WellNamed(st.modules)
    requires ParsesToNamed(env)
    ensures WellNamed(GetModule(st, env, name).1.modules)
  {
  }

  /**
   * A lookup that served a compiled module, or a source module in step
   * with its file, is stable: looking the same name up again serves the
   * same module and changes nothing.
   */
  lemma GetModuleTwice(st: Manager, env: Env, name: Name)
    requires WellNamed(st.modules)
    requires GetModule(st, env, name).0.Found?
    requires var m := GetModule(st, env, name).0.served; m.Compiled? || (m.Source? && Synched(env, m))
    ensures var r := GetModule(st, env, name); GetModule(r.1, env, name) == r
  {
  }
}

=== FILE: persistence.dfy ===
/**
 * Serialisation of a modules manager: the path helper's python path and
 * the set of keys are written; no module body is. Reading puts one empty
 * module back per key, so nothing is parsed until it is looked up.
 */
module Persistence {
  import opened ModuleIndex
  import opened ModulesManager

  /** The serialised form: the python path, then a set of keys. */
  datatype Persisted = Persisted(pythonpath: seq<string>, keys: set<ModulesKey>)

  /** No two keys of the set share a name (keys compare by name). */
  predicate NamesDistinct(keys: set<ModulesKey>) {
    forall k1, k2 :: k1 in keys && k2 in keys && k1.name == k2.name ==> k1 == k2
  }

  /** writeObject: the python path and a copy of the key set, one key per entry. */
  function WriteObject(st: Manager): (p: Persisted)
    ensures p.pythonpath == st.pythonpath
    ensures forall k :: k in p.keys <==> k.name in st.modules && st.modules[k.name].keyFile == k.file
    ensures NamesDistinct(p.keys)
    ensures |p.keys| == |st.modules|
  {
    AllModuleNamesSize(st.modules);
    Persisted(st.pythonpath, AllModuleNames(st.modules))
  }

  /**
   * readObject: a fresh index holding, for each key read, an empty module
   * with that key's name and file.
   */
  method ReadObject(p: Persisted) returns (st: Manager)
    ensures st.pythonpath == p.pythonpath
    ensures forall n :: n in st.modules <==> exists k :: k in p.keys && k.name == n
    ensures forall n :: n in st.modules ==> st.modules[n].stored.Empty? && st.modules[n].stored.name == n
    ensures forall n :: n in st.modules ==> KeyAt(st.modules, n) in p.keys
    ensures NamesDistinct(p.keys) ==>
      forall k :: k in p.keys ==> st.modules[k.name] == Slot(k.file, Empty(k.name, k.file))
  {
    var modules: Index := map[];
    var rest := p.keys;
    while rest != {}
      invariant rest <= p.keys
      invariant forall n :: n in modules <==> exists k :: k in p.keys - rest && k.name == n
      invariant forall n :: n in modules ==> modules[n].stored.Empty? && modules[n].stored.name == n
      invariant forall n :: n in modules ==> KeyAt(modules, n) in p.keys
      invariant NamesDistinct(p.keys) ==>
        forall k :: k in p.keys - rest ==> k.name in modules && modules[k.name] == Slot(k.file, Empty(k.name, k.file))
      decreases |rest|
    {
      var k :| k in rest;
      modules := Put(modules, k, Empty(k.name, k.file));
      rest := rest - {k};
    }
    st := Manager(p.pythonpath, modules);
  }

  /**
   * A save followed by a restore keeps the python path and every key, and
   * leaves every entry an empty module carrying its key's file.
   */
  method SaveAndRestore(st: Manager) returns (restored: Manager)
    ensures restored.pythonpath == st.pythonpath
    ensures restored.modules.Keys == st.modules.Keys
    ensures AllModuleNames(restored.modules) == AllModuleNames(st.modules)
    ensures AllEmpty(restored.modules) && WellNamed(restored.modules)
    ensures forall n :: n in restored.modules ==> restored.modules[n].stored.file == st.modules[n].keyFile
  {
    var p := WriteObject(st);
    restored := ReadObject(p);
    forall n | n in st.modules
      ensures n in restored.modules
    {
      assert KeyAt(st.modules, n) in p.keys;
    }
  }
}

=== FILE: wrappers.dfy ===
/** Optional values: the model's stand-in for Java's nullable references. */
module Wrappers {

  datatype Option<+T> = None | Some(value: T) {

    /** The value, or `default` for None (a null treated as a default). */
    function GetOr(default: T): T {
      match this
      case Some(v) => v
      case None => default
    }
  }
}
